=== FILE: README.md ===
# Drawing history and drawables of a canvas paint page

This project models the core of a small browser paint page in Dafny. The page
keeps a stack of committed paths and a redo list. Mouse handlers start, extend
and stop a freehand marker line. Buttons undo, redo, clear and switch the
brush thickness. The drawable objects (marker lines, stickers and the tool
preview) decide what to draw.

- `render_objects.dfy`, module `RenderObjects`, models `src/renderObjects.ts`.
  It holds `Point`, the `Drawable` interface as a sum type
  `MarkerLine | Sticker`, and `ToolPreview`. It has their constructors and
  `drag`, and their `display` as a pure function. That function returns an
  abstract list of canvas commands (`MoveTo`, `LineTo`, `Ellipse`,
  `FillText`, ...) instead of calling a 2D context.
- `drawing.dfy`, module `Drawing`, models `src/main.ts`. The page state is
  one record: `paths`, `redoList`, `isDrawing`, `curThickness`, and the
  disabled flags of the undo and redo buttons. Each handler is a pure
  transition. The page's event listeners become an `Event` type with
  `Step`/`Run`, and an invariant holds of every reachable state. `redraw`
  is modelled as a method that loops over the paths.
- `drawing_properties.dfy`, module `DrawingProperties`, holds lemmas that
  relate several operations. Undo and redo are inverses. Repeated undo is
  described exactly. Undo/redo runs conserve drawables. A whole mouse gesture
  records one stroke. The repainted frame changes predictably under
  undo and redo.

Where the code departs from the usual expectations of an undo/redo drawing
page, the model follows the code:

- `startPath` does not clear the redo list (`src/main.ts:76-84`). A redo after
  a new stroke puts the last undone drawable back on top of the new stroke
  (`RedoSurvivesNewStroke`). No lemma claims that a new edit invalidates redo.
- `startPath` does not refresh the buttons; they are refreshed by the next
  `addPoint` (through `draw()` and the "drawing-changed" listener),
  `stopPath`, undo, redo or clear. So "button disabled iff stack empty"
  holds in every reachable state where no gesture is in progress
  (`Drawing.Inv`), not always. A disabled button delivers no click, so the
  model ignores an undo or redo click while that button is disabled
  (`src/main.ts:22`, `:27`, `:148-149`). An undo during the first stroke of
  a fresh page is therefore ignored (`UndoDuringFirstStrokeIgnored`).
- `addPoint` while drawing with no path left reads `paths[-1]`, which is
  `undefined`, and its `drag` call throws a TypeError. This can happen when a
  clear or undo is activated during a gesture. The model returns
  `Err(NoCurrentPath)` and leaves the state as it was. `Step` carries on with
  the unchanged state, as the page goes on handling later events.
- The two source files come from different revisions. The `MarkerLine` class
  in `src/main.ts:37-64` and the one in `src/renderObjects.ts:66-93` are
  treated as one type. The `curThickness` and `curSticker` values that
  `src/renderObjects.ts:2` imports are explicit parameters of
  `PreviewDisplay`.

Coordinates are integers. The preview sizes are reals, with
`width = thickness / 2` and `radius = width / 2`.

## Model

| member | source | states |
|---|---|---|
| RenderObjects.NewMarkerLine | src/renderObjects.ts:70-73 | a new line holds exactly one point, the constructor's coordinates, keeps the given thickness, and displays nothing |
| RenderObjects.NewSticker | src/renderObjects.ts:50-54 | a new sticker sits at the given position with the given text and displays as that text filled at that position |
| RenderObjects.Drag | src/renderObjects.ts:75-77 | dragging a line grows it by exactly one point at the tail, keeps the old points as an unchanged prefix and never changes thickness; dragging a sticker moves it and keeps its text, as `Sticker.drag` at `src/renderObjects.ts:56-59` does |
| RenderObjects.Display | src/renderObjects.ts:79-92 | a line with fewer than two points draws nothing; otherwise one width setting, one moveTo at the first point, one lineTo per later point in order, then one stroke; a sticker draws only its text at its position, as `Sticker.display` at `src/renderObjects.ts:61-63` does |
| RenderObjects.DisplayMarkerLine | src/renderObjects.ts:79-92 | the source's loop over points 1..n-1 produces exactly the commands of `Display`, with n - 1 lineTo commands when n >= 2 |
| RenderObjects.LineSegmentCount | src/renderObjects.ts:80-90 | the number of segments drawn for a line of n points is n - 1 when n >= 2 and 0 otherwise; a sticker draws no segment |
| RenderObjects.DragExtendsDisplay | src/renderObjects.ts:75-90 | after a drag the displayed line gains exactly one segment, to the dragged point, and the earlier commands are unchanged; a one-point line becomes a one-segment line |
| RenderObjects.StickerDragLastWins | src/renderObjects.ts:56-63 | two sticker drags equal a single drag to the last position, and the sticker then draws its text there |
| RenderObjects.DragAllAppends | src/renderObjects.ts:75-77 | dragging a line through a sequence of points appends exactly those points, in order |
| RenderObjects.NewToolPreview | src/renderObjects.ts:9-13 | a new preview stores the given position, is not rendering, and draws nothing whatever the thickness and sticker |
| RenderObjects.PreviewDisplay | src/renderObjects.ts:15-42 | a hidden preview draws nothing; with a non-empty sticker only the glyph at the preview position; otherwise a circle at the preview position with 2 * lineWidth == thickness and 4 * radius == thickness, stroked then filled; never a line |
| Drawing.CheckAndEnableButtons | src/main.ts:147-150 | afterwards undo is disabled iff there are no paths and redo is disabled iff the redo list is empty; nothing else changes |
| Drawing.ThickButton | src/main.ts:30 | the thickness becomes 10 and nothing else changes |
| Drawing.ThinButton | src/main.ts:32 | the thickness becomes 5 and nothing else changes |
| Drawing.StartPath | src/main.ts:76-84 | drawing starts; exactly one line is appended, holding the event point and the current thickness; earlier paths, the redo list and the buttons are unchanged |
| Drawing.AddPoint | src/main.ts:87-93 | no change unless drawing; while drawing with no path it fails; otherwise only the last path is dragged, every other path and the redo list stay, and the buttons agree with the stacks |
| Drawing.StopPath | src/main.ts:95-100 | drawing stops; if a gesture was in progress the stacks are kept and the buttons refreshed, otherwise nothing changes |
| Drawing.ClearCanvas | src/main.ts:103-111 | both stacks are empty and both buttons disabled, whatever the prior state |
| Drawing.Undo | src/main.ts:127-135 | with paths, the last path is popped and pushed onto the redo list; with none, both stacks are unchanged; the buttons agree afterwards |
| Drawing.Redo | src/main.ts:137-145 | with a non-empty redo list, its top moves to the end of the paths; otherwise both stacks are unchanged; the buttons agree afterwards |
| Drawing.UndoConserves | src/main.ts:129-130 | undo keeps the multiset of drawables held on both stacks, and their total count |
| Drawing.RedoConserves | src/main.ts:139-140 | redo keeps the multiset of drawables held on both stacks, and their total count |
| Drawing.InitialInv | src/main.ts:22-35 | the page as loaded (thickness 5 and not drawing, as lines 34-35 set them; both buttons disabled; empty stacks, as `src/main.ts:73` sets them) satisfies the invariant, and its buttons agree with its stacks |
| Drawing.Step | src/main.ts:157-160 | mousedown runs startPath, mousemove runs addPoint, mouseup and mouseout run stopPath; the clear, thick and thin clicks run their handlers (wired at lines 17, 30 and 32), and the undo and redo clicks (wired at lines 21 and 26) run theirs only while that button is enabled and otherwise change nothing; a mousemove whose addPoint throws (drawing with no path) leaves the state unchanged |
| Drawing.StepPreservesInv | src/main.ts:156-161 | every handled event keeps the thickness at 5 or 10, keeps the redo button in agreement with the redo list, keeps the undo button in agreement unless a gesture is in progress and enabled only with a path to pop, and keeps every stored drawable a marker line holding at least one point, drawn with a button thickness |
| Drawing.RunPreservesInv | src/main.ts:156-161 | the invariant holds after any sequence of events |
| Drawing.Redraw | src/main.ts:114-125 | the frame is a clear followed by every path's display in stack order, and the buttons are refreshed |
| DrawingProperties.UndoThenRedo | src/main.ts:127-145 | undo then redo on non-empty paths restores both stacks element for element, and the whole state when the buttons agreed |
| DrawingProperties.RedoThenUndo | src/main.ts:127-145 | redo then undo on a non-empty redo list restores both stacks exactly |
| DrawingProperties.HistoryNoOpsWhenEmpty | src/main.ts:127-145 | undo with no paths and redo with an empty redo list change nothing when the buttons agreed |
| DrawingProperties.ClearedHistoryIsInert | src/main.ts:103-145 | after a clear, undo and redo leave the state as it is |
| DrawingProperties.UndoAbove | src/main.ts:127-135 | undoing once per path above a base leaves exactly the base and appends those paths to the redo list, topmost first |
| DrawingProperties.UndoMany | src/main.ts:127-135 | m <= |paths| undos leave the first |paths| - m paths and push the top m onto the redo list in reverse order |
| DrawingProperties.CountsAfterUndos | src/main.ts:127-135 | N paths and an empty redo list, then M <= N undos, leave N - M paths and M entries to redo |
| DrawingProperties.UndoRedoConserves | src/main.ts:127-145 | any run of undo and redo clicks, delivered or ignored, keeps the multiset and total count of drawables on the two stacks |
| DrawingProperties.RunAppend | src/main.ts:156-161 | handling a + b equals handling a and then b |
| DrawingProperties.MovesDragTopPath | src/main.ts:87-93 | during a gesture, a run of mouse moves drags only the top path through the visited points; the rest of the paths, the redo list and the thickness stay |
| DrawingProperties.GestureRecordsStroke | src/main.ts:76-100 | press, moves, release add exactly one line holding the press point followed by the moved-to points, with the thickness at the press; the redo list is kept and the buttons agree |
| DrawingProperties.ThreePointStroke | src/main.ts:76-100 | on a fresh page, press at (10,10), moves to (20,10) and (20,20), then release commit exactly one line through those three points with thickness 5 |
| DrawingProperties.RedoSurvivesNewStroke | src/main.ts:76-84 | a new stroke keeps the redo list, so a redo right after it puts the last undone drawable above the new line |
| DrawingProperties.FrameAfterUndo | src/main.ts:114-135 | the repainted paths after undo are the previous frame without the top path's drawing at its end |
| DrawingProperties.FrameAfterRedo | src/main.ts:114-145 | the repainted paths after redo are the previous frame followed by the restored drawable's drawing |
| DrawingProperties.ReachableStates | src/main.ts:147-161 | from page load, whatever the events, the thickness is 5 or 10 and, whenever no gesture is in progress, each button is disabled exactly when its stack is empty; the redo button always agrees with the redo list, and an enabled undo button always has a path to pop |
| DrawingProperties.UndoDuringFirstStrokeIgnored | src/main.ts:76-84 | on a fresh page, an undo click right after the first mousedown is not delivered, because startPath leaves the undo button disabled: the one-point stroke stays and the redo list stays empty |

## Left out

- DOM and canvas plumbing is not modelled: element lookup and the page header (`src/main.ts:4-32`), the `CustomEvent` objects (`src/main.ts:106-110`, `:153`) and `console.log` (`src/main.ts:128`, `:138`). The button wiring appears only as the `Event` routing of `Drawing.Step`, including that a disabled undo or redo button delivers no click. The effect of the synchronous "drawing-changed" dispatch is modelled: a repaint and a button refresh.
- Styling is not modelled: `strokeStyle` and `lineJoin` settings. Neither is the pixel output of `stroke`, `fill`, `ellipse` or `fillText`. Rendering is an abstract command list.
- RenderObjects.PreviewDisplay: the arc's rotation and start/end angles (`0`, `0`, `2 * Math.PI`) are not recorded in the `Ellipse` command, since the model has no floating-point angles.
- RenderObjects.Display: the line colour and round join are not recorded, only width, path and stroke.
- Coordinates are integers. Browsers may report fractional `offsetX`/`offsetY`, and JavaScript numbers are IEEE doubles; the model has no rounding.
- Nothing in `src/main.ts` or `src/renderObjects.ts` sets `ToolPreview.isRendering` or changes its position after construction. The show/hide rules for the preview are therefore not modelled.
- `Sticker.drag` and `new Sticker` are modelled, but no handler in `src/main.ts` creates stickers. Stamp placement, rotation, colours, custom stickers, end caps and PNG export belong to other revisions and are not part of this model.
- The rule that a drawable is never on both stacks at once is about object identity. Drawables here are values, so two equal strokes are indistinguishable. Multiset conservation under undo and redo (`Drawing.UndoConserves`, `Drawing.RedoConserves`, `DrawingProperties.UndoRedoConserves`) stands in for it.

=== FILE: drawing.dfy ===
/** The drawing history of the canvas page: the committed paths, the redo
    list, the drawing flag, the current thickness and the enabled state of the
    undo and redo buttons, with the mouse handlers and button commands as pure
    transitions on that state.

    `draw()` dispatches a "drawing-changed" event whose listener `redraw`
    repaints and then runs `checkAndEnableButtons`; the dispatch is
    synchronous, so every transition that calls `draw()` (and `clearCanvas`,
    which dispatches the event itself) ends with the buttons brought up to date.
 */
module Drawing {
  import opened RenderObjects

  datatype State = State(
    paths: seq<Drawable>,     // committed drawables, bottom to top
    redoList: seq<Drawable>,  // undone drawables, most recently undone last
    isDrawing: bool,
    curThickness: int,
    undoDisabled: bool,
    redoDisabled: bool
  )

  /** The failure `addPoint` raises: with no path left, `paths[length - 1]` is
      `undefined` and calling `drag` on it throws a TypeError. */
  datatype Error = NoCurrentPath

  datatype Result = Ok(state: State) | Err(error: Error)

  /** Page load: empty history, not drawing, thickness 5, both buttons disabled. */
  const Initial: State := State([], [], false, 5, true, true)

  /** Both history buttons are disabled exactly when their stack is empty. */
  predicate ButtonsAgree(s: State) {
    && s.undoDisabled == (|s.paths| == 0)
    && s.redoDisabled == (|s.redoList| == 0)
  }

  /** The only values the thickness buttons and the initial value produce. */
  predicate ValidThickness(t: int) {
    t == 5 || t == 10
  }

  /** `checkAndEnableButtons`: only the two button flags change. */
  function CheckAndEnableButtons(s: State): (r: State)
    ensures ButtonsAgree(r)
    ensures r.paths == s.paths && r.redoList == s.redoList
    ensures r.isDrawing == s.isDrawing && r.curThickness == s.curThickness
  {
    s.(undoDisabled := |s.paths| == 0, redoDisabled := |s.redoList| == 0)
  }

  /** Click on the "thick" button. */
  function ThickButton(s: State): (r: State)
    ensures r.curThickness == 10 && ValidThickness(r.curThickness)
    ensures r.(curThickness := s.curThickness) == s
  {
    s.(curThickness := 10)
  }

  /** Click on the "thin" button. */
  function ThinButton(s: State): (r: State)
    ensures r.curThickness == 5 && ValidThickness(r.curThickness)
    ensures r.(curThickness := s.curThickness) == s
  {
    s.(curThickness := 5)
  }

  /** `startPath` (mousedown): a new one-point line at the pointer with the
      current thickness goes on top of the paths. The redo list is kept as it
      is, and the buttons are not refreshed. */
  function StartPath(s: State, x: int, y: int): (r: State)
    ensures r.isDrawing
    ensures |r.paths| == |s.paths| + 1 && r.paths[..|s.paths|] == s.paths
    ensures r.paths[|s.paths|] == MarkerLine([Point(x, y)], s.curThickness)
    ensures r.redoList == s.redoList
    ensures r.curThickness == s.curThickness
    ensures r.undoDisabled == s.undoDisabled && r.redoDisabled == s.redoDisabled
  {
    s.(isDrawing := true, paths := s.paths + [NewMarkerLine(x, y, s.curThickness)])
  }

  /** `addPoint` (mousemove): nothing unless drawing; otherwise the last path
      is dragged to the pointer and the page is redrawn. */
  function AddPoint(s: State, x: int, y: int): (r: Result)
    ensures !s.isDrawing ==> r == Ok(s)
    ensures s.isDrawing && |s.paths| == 0 ==> r == Err(NoCurrentPath)
    ensures s.isDrawing && |s.paths| > 0 ==>
      && r.Ok?
      && |r.state.paths| == |s.paths|
      && r.state.paths[..|s.paths| - 1] == s.paths[..|s.paths| - 1]
      && r.state.paths[|s.paths| - 1] == Drag(s.paths[|s.paths| - 1], x, y)
      && r.state.redoList == s.redoList
      && r.state.isDrawing
      && r.state.curThickness == s.curThickness
      && ButtonsAgree(r.state)
  {
    if !s.isDrawing then
      Ok(s)
    else if |s.paths| == 0 then
      Err(NoCurrentPath)
    else
      var n := |s.paths|;
      Ok(CheckAndEnableButtons(s.(paths := s.paths[..n - 1] + [Drag(s.paths[n - 1], x, y)])))
  }

  /** `stopPath` (mouseup / mouseout): ends the gesture and refreshes the
      buttons; does nothing when no gesture is in progress. */
  function StopPath(s: State): (r: State)
    ensures !r.isDrawing
    ensures !s.isDrawing ==> r == s
    ensures s.isDrawing ==>
      && r.paths == s.paths && r.redoList == s.redoList
      && r.curThickness == s.curThickness
      && ButtonsAgree(r)
  {
    if s.isDrawing then CheckAndEnableButtons(s.(isDrawing := false)) else s
  }

  /** `clearCanvas`: both stacks emptied whatever they held; the dispatched
      "drawing-changed" event refreshes the buttons. */
  function ClearCanvas(s: State): (r: State)
    ensures r.paths == [] && r.redoList == []
    ensures r.undoDisabled && r.redoDisabled
    ensures r.isDrawing == s.isDrawing && r.curThickness == s.curThickness
  {
    CheckAndEnableButtons(s.(paths := [], redoList := []))
  }

  /** `to.push(from.pop())` on a non-empty `from`: the top element moves
      from one stack to the other. */
  function MoveTop<T>(from: seq<T>, to: seq<T>): (r: (seq<T>, seq<T>))
    requires |from| > 0
    ensures r.0 + [from[|from| - 1]] == from
    ensures r.1 == to + [from[|from| - 1]]
  {
    var n := |from|;
    (from[..n - 1], to + [from[n - 1]])
  }

  /** `undo`: the top path moves onto the redo list; a no-op on the stacks
      when there is no path. The buttons are refreshed either way. */
  function Undo(s: State): (r: State)
    ensures |s.paths| > 0 ==>
      && r.paths == s.paths[..|s.paths| - 1]
      && r.redoList == s.redoList + [s.paths[|s.paths| - 1]]
    ensures |s.paths| == 0 ==> r.paths == s.paths && r.redoList == s.redoList
    ensures r.isDrawing == s.isDrawing && r.curThickness == s.curThickness
    ensures ButtonsAgree(r)
  {
    if |s.paths| > 0 then
      var (paths, redoList) := MoveTop(s.paths, s.redoList);
      CheckAndEnableButtons(s.(paths := paths, redoList := redoList))
    else
      CheckAndEnableButtons(s)
  }

  /** `redo`: the top of the redo list goes back on top of the paths; a no-op
      on the stacks when the redo list is empty. The buttons are refreshed
      either way. */
  function Redo(s: State): (r: State)
    ensures |s.redoList| > 0 ==>
      && r.redoList == s.redoList[..|s.redoList| - 1]
      && r.paths == s.paths + [s.redoList[|s.redoList| - 1]]
    ensures |s.redoList| == 0 ==> r.paths == s.paths && r.redoList == s.redoList
    ensures r.isDrawing == s.isDrawing && r.curThickness == s.curThickness
    ensures ButtonsAgree(r)
  {
    if |s.redoList| > 0 then
      var (redoList, paths) := MoveTop(s.redoList, s.paths);
      CheckAndEnableButtons(s.(paths := paths, redoList := redoList))
    else
      CheckAndEnableButtons(s)
  }

  /** The drawables held by the page, on either stack, counted with
      multiplicity. */
  function Held(s: State): multiset<Drawable> {
    multiset(s.paths) + multiset(s.redoList)
  }

  /** Undo neither creates nor loses a drawable. */
  lemma UndoConserves(s: State)
    ensures Held(Undo(s)) == Held(s)
    ensures |Undo(s).paths| + |Undo(s).redoList| == |s.paths| + |s.redoList|
  {
    if |s.paths| > 0 {
      var n := |s.paths|;
      assert s.paths == s.paths[..n - 1] + [s.paths[n - 1]];
    }
  }

  /** Redo neither creates nor loses a drawable. */
  lemma RedoConserves(s: State)
    ensures Held(Redo(s)) == Held(s)
    ensures |Redo(s).paths| + |Redo(s).redoList| == |s.paths| + |s.redoList|
  {
    if |s.redoList| > 0 {
      var n := |s.redoList|;
      assert s.redoList == s.redoList[..n - 1] + [s.redoList[n - 1]];
    }
  }

  /** The events the page listens to. */
  datatype Event =
    | MouseDown(x: int, y: int)
    | MouseMove(x: int, y: int)
    | MouseUp
    | MouseOut
    | ClearClick
    | UndoClick
    | RedoClick
    | ThickClick
    | ThinClick

  /** One dispatched event, routed to the handler its listener is wired to.
      A disabled button delivers no click, so an undo or redo click while
      that button is disabled changes nothing. A handler that throws leaves
      the state as it was, and the page goes on handling later events. */
  function Step(s: State, e: Event): (r: State)
    ensures e.MouseDown? ==> r == StartPath(s, e.x, e.y)
    ensures e.MouseMove? && AddPoint(s, e.x, e.y).Ok? ==> r == AddPoint(s, e.x, e.y).state
    ensures e.MouseMove? && s.isDrawing && |s.paths| == 0 ==> r == s
    ensures e.MouseMove? && !s.isDrawing ==> r == s
    ensures e.MouseUp? || e.MouseOut? ==> r == StopPath(s)
    ensures e.ClearClick? ==> r == ClearCanvas(s)
    ensures e.UndoClick? && !s.undoDisabled ==> r == Undo(s)
    ensures e.UndoClick? && s.undoDisabled ==> r == s
    ensures e.RedoClick? && !s.redoDisabled ==> r == Redo(s)
    ensures e.RedoClick? && s.redoDisabled ==> r == s
    ensures e.ThickClick? ==> r == ThickButton(s)
    ensures e.ThinClick? ==> r == ThinButton(s)
  {
    match e
    case MouseDown(x, y) => StartPath(s, x, y)
    case MouseMove(x, y) => (match AddPoint(s, x, y) case Ok(s') => s' case Err(_) => s)
    case MouseUp => StopPath(s)
    case MouseOut => StopPath(s)
    case ClearClick => ClearCanvas(s)
    case UndoClick => if s.undoDisabled then s else Undo(s)
    case RedoClick => if s.redoDisabled then s else Redo(s)
    case ThickClick => ThickButton(s)
    case ThinClick => ThinButton(s)
  }

  /** A sequence of events handled in order. */
  function Run(s: State, es: seq<Event>): State
    decreases |es|
  {
    if es == [] then s else Run(Step(s, es[0]), es[1..])
  }

  /** Every drawable on either stack is a marker line drawn with one of the
      two button thicknesses, holding at least its starting point. */
  predicate GoodDrawable(d: Drawable) {
    d.MarkerLine? && WellFormed(d) && ValidThickness(d.thickness)
  }

  /** What holds of every state the page can reach: the thickness is 5 or
      10; the redo button always agrees with the redo list; the undo button
      is only out of date while a gesture is in progress (`startPath` pushes
      a path without refreshing it), and then only by being disabled with a
      path to pop; every stored drawable is a marker line holding at least
      one point, drawn with a button thickness. */
  predicate Inv(s: State) {
    && ValidThickness(s.curThickness)
    && (s.isDrawing || ButtonsAgree(s))
    && s.redoDisabled == (|s.redoList| == 0)
    && (!s.undoDisabled ==> |s.paths| > 0)
    && AllGood(s.paths)
    && AllGood(s.redoList)
  }

  predicate AllGood(ds: seq<Drawable>) {
    forall i :: 0 <= i < |ds| ==> GoodDrawable(ds[i])
  }

  lemma AllGoodSnoc(ds: seq<Drawable>, d: Drawable)
    ensures AllGood(ds + [d]) <==> AllGood(ds) && GoodDrawable(d)
  {
    if AllGood(ds) && GoodDrawable(d) {
      forall i | 0 <= i < |ds + [d]|
        ensures GoodDrawable((ds + [d])[i])
      {
        if i < |ds| {
          assert (ds + [d])[i] == ds[i];
        }
      }
    }
    if AllGood(ds + [d]) {
      forall i | 0 <= i < |ds|
        ensures GoodDrawable(ds[i])
      {
        assert (ds + [d])[i] == ds[i];
      }
      assert (ds + [d])[|ds|] == d;
    }
  }

  /** Popping the top of a stack of good drawables leaves good drawables and
      moves a good one. */
  lemma AllGoodPop(ds: seq<Drawable>)
    requires |ds| > 0 && AllGood(ds)
    ensures AllGood(ds[..|ds| - 1]) && GoodDrawable(ds[|ds| - 1])
  {
    AllGoodSnoc(ds[..|ds| - 1], ds[|ds| - 1]);
    assert ds == ds[..|ds| - 1] + [ds[|ds| - 1]];
  }

  lemma InitialInv()
    ensures Inv(Initial)
    ensures ButtonsAgree(Initial)
  {
  }

  lemma StepPreservesInv(s: State, e: Event)
    requires Inv(s)
    ensures Inv(Step(s, e))
  {
    match e
    case MouseMove(x, y) =>
      if s.isDrawing && |s.paths| > 0 {
        var n := |s.paths|;
        AllGoodPop(s.paths);
        AllGoodSnoc(s.paths[..n - 1], Drag(s.paths[n - 1], x, y));
      }
    case UndoClick =>
      if !s.undoDisabled {
        AllGoodPop(s.paths);
        AllGoodSnoc(s.redoList, s.paths[|s.paths| - 1]);
      }
    case RedoClick =>
      if !s.redoDisabled {
        AllGoodPop(s.redoList);
        AllGoodSnoc(s.paths, s.redoList[|s.redoList| - 1]);
      }
    case MouseDown(x, y) =>
      AllGoodSnoc(s.paths, NewMarkerLine(x, y, s.curThickness));
    case _ =>
  }

  /** Every state reached from the initial page by any sequence of events
      satisfies the invariant. */
  lemma {:induction false} RunPreservesInv(s: State, es: seq<Event>)
    requires Inv(s)
    ensures Inv(Run(s, es))
    decreases |es|
  {
    if es != [] {
      StepPreservesInv(s, es[0]);
      RunPreservesInv(Step(s, es[0]), es[1..]);
    }
  }

  /** What `redraw` paints for a list of paths: each path's display, in order,
      so later paths are drawn over earlier ones. */
  function RenderAll(ps: seq<Drawable>): seq<DrawCommand>
    decreases |ps|
  {
    if ps == [] then [] else Display(ps[0]) + RenderAll(ps[1..])
  }

  lemma {:induction false} RenderAllAppend(a: seq<Drawable>, b: seq<Drawable>)
    ensures RenderAll(a + b) == RenderAll(a) + RenderAll(b)
    decreases |a|
  {
    if a == [] {
      assert a + b == b;
    } else {
      assert (a + b)[1..] == a[1..] + b;
      RenderAllAppend(a[1..], b);
    }
  }

  lemma RenderAllSnoc(ps: seq<Drawable>, d: Drawable)
    ensures RenderAll(ps + [d]) == RenderAll(ps) + Display(d)
  {
    RenderAllAppend(ps, [d]);
    assert [d][1..] == [];
  }

  /** `redraw`: the canvas is cleared, every path is displayed bottom to top,
      and the buttons are refreshed. */
  method Redraw(s: State) returns (cmds: seq<DrawCommand>, r: State)
    ensures cmds == [ClearRect] + RenderAll(s.paths)
    ensures |s.paths| == 0 ==> cmds == [ClearRect]
    ensures ButtonsAgree(r) && r.paths == s.paths && r.redoList == s.redoList
    ensures r.isDrawing == s.isDrawing && r.curThickness == s.curThickness
  {
    var painted := [];
    var i := 0;
    while i < |s.paths|
      invariant 0 <= i <= |s.paths|
      invariant painted == RenderAll(s.paths[..i])
    {
      var d := s.paths[i];
      assert s.paths[..i + 1] == s.paths[..i] + [d];
      RenderAllSnoc(s.paths[..i], d);
      painted := painted + Display(d);
      i := i + 1;
    }
    assert s.paths[..i] == s.paths;
    cmds := [ClearRect] + painted;
    r := CheckAndEnableButtons(s);
  }
}

=== FILE: drawing_properties.dfy ===
/** Properties of the drawing history that relate several operations: undo and
    redo as inverses, repeated undo, conservation of drawables across any run
    of undo/redo clicks, a whole mouse gesture, and what the repaint shows
    before and after a history command.
 */
module DrawingProperties {
  import opened RenderObjects
  import opened Drawing

  /** Undo followed by redo puts both stacks back exactly as they were. When
      the buttons were up to date beforehand, the whole state is restored. */
  lemma UndoThenRedo(s: State)
    requires |s.paths| > 0
    ensures Redo(Undo(s)).paths == s.paths
    ensures Redo(Undo(s)).redoList == s.redoList
    ensures ButtonsAgree(s) ==> Redo(Undo(s)) == s
  {
    var n := |s.paths|;
    assert s.paths[..n - 1] + [s.paths[n - 1]] == s.paths;
  }

  /** Redo followed by undo puts both stacks back exactly as they were. */
  lemma RedoThenUndo(s: State)
    requires |s.redoList| > 0
    ensures Undo(Redo(s)).paths == s.paths
    ensures Undo(Redo(s)).redoList == s.redoList
    ensures ButtonsAgree(s) ==> Undo(Redo(s)) == s
  {
    var n := |s.redoList|;
    assert s.redoList[..n - 1] + [s.redoList[n - 1]] == s.redoList;
  }

  /** Undo with nothing to undo, and redo with nothing to redo, change nothing
      but the button flags, and nothing at all when those were up to date. */
  lemma HistoryNoOpsWhenEmpty(s: State)
    ensures |s.paths| == 0 && ButtonsAgree(s) ==> Undo(s) == s
    ensures |s.redoList| == 0 && ButtonsAgree(s) ==> Redo(s) == s
  {
  }

  /** After clearing, undo and redo both have nothing to do. */
  lemma ClearedHistoryIsInert(s: State)
    ensures Undo(ClearCanvas(s)) == ClearCanvas(s)
    ensures Redo(ClearCanvas(s)) == ClearCanvas(s)
  {
  }

  function Reverse<T>(xs: seq<T>): (r: seq<T>)
    ensures |r| == |xs|
  {
    if xs == [] then [] else Reverse(xs[1..]) + [xs[0]]
  }

  /** The state after m clicks on undo. */
  function UndoTimes(s: State, m: nat): State
    decreases m
  {
    if m == 0 then s else UndoTimes(Undo(s), m - 1)
  }

  /** Undoing as many times as there are paths above `base` moves exactly
      those paths onto the redo list, the topmost first, and leaves `base`. */
  lemma {:induction false} UndoAbove(s: State, base: seq<Drawable>, above: seq<Drawable>)
    requires s.paths == base + above
    ensures UndoTimes(s, |above|).paths == base
    ensures UndoTimes(s, |above|).redoList == s.redoList + Reverse(above)
    decreases |above|
  {
    if above == [] {
      assert s.paths == base;
      assert s.redoList + [] == s.redoList;
    } else {
      var k := |above| - 1;
      UndoPopsAbove(s, base, above);
      UndoAbove(Undo(s), base, above[..k]);
      assert UndoTimes(s, |above|) == UndoTimes(Undo(s), k);
    }
  }

  /** One undo moves the top of `above` over to the redo list. */
  lemma UndoPopsAbove(s: State, base: seq<Drawable>, above: seq<Drawable>)
    requires s.paths == base + above && |above| > 0
    ensures Undo(s).paths == base + above[..|above| - 1]
    ensures Undo(s).redoList + Reverse(above[..|above| - 1]) == s.redoList + Reverse(above)
  {
    PopAbove(base, above);
    ReverseLast(s.redoList, above);
  }

  /** Popping `base + above` pops `above`. */
  lemma PopAbove<T>(base: seq<T>, above: seq<T>)
    requires |above| > 0
    ensures (base + above)[..|base + above| - 1] == base + above[..|above| - 1]
    ensures (base + above)[|base + above| - 1] == above[|above| - 1]
  {
  }

  /** Appending the reverse of `xs` appends its last element first. */
  lemma {:induction false} ReverseLast<T>(a: seq<T>, xs: seq<T>)
    requires |xs| > 0
    ensures a + Reverse(xs) == (a + [xs[|xs| - 1]]) + Reverse(xs[..|xs| - 1])
  {
    var k := |xs| - 1;
    assert xs == xs[..k] + [xs[k]];
    ReverseSnoc(xs[..k], xs[k]);
    assert (a + [xs[k]]) + Reverse(xs[..k]) == a + ([xs[k]] + Reverse(xs[..k]));
  }

  /** m undos (m at most the number of paths) move the top m paths onto the
      redo list, the topmost first, and keep the rest of the paths in place. */
  lemma UndoMany(s: State, m: nat)
    requires m <= |s.paths|
    ensures UndoTimes(s, m).paths == s.paths[..|s.paths| - m]
    ensures UndoTimes(s, m).redoList == s.redoList + Reverse(s.paths[|s.paths| - m..])
  {
    var n := |s.paths|;
    assert s.paths == s.paths[..n - m] + s.paths[n - m..];
    UndoAbove(s, s.paths[..n - m], s.paths[n - m..]);
  }

  lemma {:induction false} ReverseSnoc<T>(xs: seq<T>, x: T)
    ensures Reverse(xs + [x]) == [x] + Reverse(xs)
  {
    if xs == [] {
      assert xs + [x] == [x];
      assert [x][1..] == [];
    } else {
      assert (xs + [x])[0] == xs[0];
      assert (xs + [x])[1..] == xs[1..] + [x];
      ReverseSnoc(xs[1..], x);
    }
  }

  /** N committed paths and an empty redo list, then M <= N undos: N - M paths
      remain and the redo list holds M. */
  lemma CountsAfterUndos(s: State, m: nat)
    requires s.redoList == [] && m <= |s.paths|
    ensures |UndoTimes(s, m).paths| == |s.paths| - m
    ensures |UndoTimes(s, m).redoList| == m
  {
    UndoMany(s, m);
  }

  /** Any run of undo and redo clicks neither creates nor loses a drawable:
      the two stacks together hold the same drawables, the same number of
      times each. */
  lemma {:induction false} UndoRedoConserves(s: State, es: seq<Event>)
    requires forall i :: 0 <= i < |es| ==> es[i] == UndoClick || es[i] == RedoClick
    ensures Held(Run(s, es)) == Held(s)
    ensures |Run(s, es).paths| + |Run(s, es).redoList| == |s.paths| + |s.redoList|
    decreases |es|
  {
    if es != [] {
      if es[0] == UndoClick && !s.undoDisabled {
        UndoConserves(s);
      } else if es[0] == RedoClick && !s.redoDisabled {
        RedoConserves(s);
      }
      UndoRedoConserves(Step(s, es[0]), es[1..]);
    }
  }

  lemma {:induction false} RunAppend(s: State, a: seq<Event>, b: seq<Event>)
    ensures Run(s, a + b) == Run(Run(s, a), b)
    decreases |a|
  {
    if a == [] {
      assert a + b == b;
    } else {
      assert (a + b)[1..] == a[1..] + b;
      RunAppend(Step(s, a[0]), a[1..], b);
    }
  }

  /** One mouse-move event per point. */
  function Moves(ps: seq<Point>): (es: seq<Event>)
    ensures |es| == |ps|
    ensures forall i :: 0 <= i < |ps| ==> es[i] == MouseMove(ps[i].x, ps[i].y)
  {
    seq(|ps|, i requires 0 <= i < |ps| => MouseMove(ps[i].x, ps[i].y))
  }

  /** While a gesture is in progress, mouse moves drag only the top path
      through the visited points and leave everything else unchanged. */
  lemma {:induction false} MovesDragTopPath(s: State, ps: seq<Point>)
    requires s.isDrawing && |s.paths| > 0
    ensures Run(s, Moves(ps)).paths == s.paths[..|s.paths| - 1] + [DragAll(s.paths[|s.paths| - 1], ps)]
    ensures Run(s, Moves(ps)).redoList == s.redoList
    ensures Run(s, Moves(ps)).isDrawing
    ensures Run(s, Moves(ps)).curThickness == s.curThickness
    ensures ps != [] ==> ButtonsAgree(Run(s, Moves(ps)))
    decreases |ps|
  {
    var n := |s.paths|;
    if ps == [] {
      assert s.paths == s.paths[..n - 1] + [s.paths[n - 1]];
    } else {
      var s' := Step(s, MouseMove(ps[0].x, ps[0].y));
      assert Moves(ps)[1..] == Moves(ps[1..]);
      assert s'.paths[..n - 1] == s.paths[..n - 1];
      MovesDragTopPath(s', ps[1..]);
    }
  }

  /** A complete stroke gesture (press at p, move through ps, release)
      commits exactly one new line holding p followed by ps, drawn with the
      thickness current at the press. Earlier paths and the redo list are
      untouched, and the buttons end up agreeing with the stacks. */
  lemma GestureRecordsStroke(s: State, x: int, y: int, ps: seq<Point>)
    ensures Run(s, [MouseDown(x, y)] + Moves(ps) + [MouseUp]).paths
      == s.paths + [MarkerLine([Point(x, y)] + ps, s.curThickness)]
    ensures Run(s, [MouseDown(x, y)] + Moves(ps) + [MouseUp]).redoList == s.redoList
    ensures !Run(s, [MouseDown(x, y)] + Moves(ps) + [MouseUp]).isDrawing
    ensures ButtonsAgree(Run(s, [MouseDown(x, y)] + Moves(ps) + [MouseUp]))
  {
    var s1 := StartPath(s, x, y);
    RunAppend(s, [MouseDown(x, y)], Moves(ps));
    RunAppend(s, [MouseDown(x, y)] + Moves(ps), [MouseUp]);
    assert Run(s, [MouseDown(x, y)]) == s1;
    MovesDragTopPath(s1, ps);
    DragAllAppends(NewMarkerLine(x, y, s.curThickness), ps);
    assert s1.paths[..|s1.paths| - 1] == s.paths;
    var s2 := Run(s1, Moves(ps));
    assert Run(s2, [MouseUp]) == StopPath(s2);
  }

  /** A three-point stroke on a fresh page: press at (10,10), move to (20,10)
      and (20,20), release. */
  lemma ThreePointStroke()
    ensures Run(Initial, [MouseDown(10, 10)] + Moves([Point(20, 10), Point(20, 20)]) + [MouseUp]).paths
      == [MarkerLine([Point(10, 10), Point(20, 10), Point(20, 20)], 5)]
  {
    GestureRecordsStroke(Initial, 10, 10, [Point(20, 10), Point(20, 20)]);
    assert [Point(10, 10)] + [Point(20, 10), Point(20, 20)] == [Point(10, 10), Point(20, 10), Point(20, 20)];
  }

  /** Starting a new stroke does not discard the redo list: a redo after the
      new stroke brings the last undone drawable back on top of it. */
  lemma RedoSurvivesNewStroke(s: State, x: int, y: int)
    requires |s.redoList| > 0
    ensures var r := Redo(StopPath(StartPath(s, x, y)));
      && r.paths == s.paths + [NewMarkerLine(x, y, s.curThickness), s.redoList[|s.redoList| - 1]]
      && r.redoList == s.redoList[..|s.redoList| - 1]
  {
  }

  /** What the page shows after a repaint: undo removes exactly the top
      path's drawing from the end of the frame, and redo adds the restored
      drawable's drawing at the end. */
  lemma FrameAfterUndo(s: State)
    requires |s.paths| > 0
    ensures RenderAll(s.paths) == RenderAll(Undo(s).paths) + Display(s.paths[|s.paths| - 1])
  {
    var n := |s.paths|;
    assert s.paths == s.paths[..n - 1] + [s.paths[n - 1]];
    RenderAllSnoc(s.paths[..n - 1], s.paths[n - 1]);
  }

  lemma FrameAfterRedo(s: State)
    requires |s.redoList| > 0
    ensures RenderAll(Redo(s).paths) == RenderAll(s.paths) + Display(s.redoList[|s.redoList| - 1])
  {
    RenderAllSnoc(s.paths, s.redoList[|s.redoList| - 1]);
  }

  /** Every state the page reaches from load satisfies the invariant; in
      particular, whenever no gesture is in progress the undo button is
      disabled exactly when there is nothing to undo, and likewise for redo. */
  lemma ReachableStates(es: seq<Event>)
    ensures Inv(Run(Initial, es))
    ensures !Run(Initial, es).isDrawing ==> ButtonsAgree(Run(Initial, es))
    ensures ValidThickness(Run(Initial, es).curThickness)
    ensures Run(Initial, es).redoDisabled <==> |Run(Initial, es).redoList| == 0
    ensures !Run(Initial, es).undoDisabled ==> |Run(Initial, es).paths| > 0
  {
    InitialInv();
    RunPreservesInv(Initial, es);
  }

  /** The undo button is not refreshed when a stroke starts, so an undo
      click during the first stroke of a fresh page is not delivered: the
      stroke stays and nothing is queued for redo. */
  lemma UndoDuringFirstStrokeIgnored(x: int, y: int)
    ensures Run(Initial, [MouseDown(x, y), UndoClick]).paths == [MarkerLine([Point(x, y)], 5)]
    ensures Run(Initial, [MouseDown(x, y), UndoClick]).redoList == []
  {
    var s := Step(Initial, MouseDown(x, y));
    assert s.undoDisabled && s.paths == [MarkerLine([Point(x, y)], 5)];
    assert Run(Initial, [MouseDown(x, y), UndoClick]) == Run(s, [UndoClick]);
    assert Run(s, [UndoClick]) == Run(Step(s, UndoClick), []);
  }
}

=== FILE: render_objects.dfy ===
/** The drawable value types of the canvas: freehand marker lines, stickers
    and the tool preview. Rendering is modelled as the list of abstract draw
    commands a display call would issue on the 2D context, so that which
    branch is taken and how many segments are drawn can be stated and proved.
 */
module RenderObjects {

  /** A pointer position in canvas pixels (event offsetX / offsetY). */
  datatype Point = Point(x: int, y: int)

  /** The `Drawable` interface: every variant can be dragged and displayed. */
  datatype Drawable =
    | MarkerLine(points: seq<Point>, thickness: int)
    | Sticker(pos: Point, text: string)

  /** The abstract canvas operations issued by the display routines.
      Colours, join styles and the full-circle arc angles are not modelled. */
  datatype DrawCommand =
    | ClearRect
    | SetLineWidth(width: real)
    | BeginPath
    | MoveTo(to: Point)
    | LineTo(to: Point)
    | Ellipse(center: Point, radiusX: real, radiusY: real)
    | Stroke
    | Fill
    | FillText(text: string, at: Point)

  /** A marker line always holds at least the point it was started at. */
  predicate WellFormed(d: Drawable) {
    d.MarkerLine? ==> |d.points| >= 1
  }

  /** `new MarkerLine(initialX, initialY, thickness)` */
  function NewMarkerLine(x: int, y: int, thickness: int): (d: Drawable)
    ensures d.MarkerLine? && WellFormed(d)
    ensures |d.points| == 1 && d.points[0] == Point(x, y)
    ensures d.thickness == thickness
    ensures Display(d) == []
  {
    MarkerLine([Point(x, y)], thickness)
  }

  /** `new Sticker(x, y, text)` */
  function NewSticker(x: int, y: int, text: string): (d: Drawable)
    ensures d.Sticker? && d.pos == Point(x, y) && d.text == text
    ensures Display(d) == [FillText(text, Point(x, y))]
  {
    Sticker(Point(x, y), text)
  }

  /** `drag(x, y)`: a marker line grows by one point at its tail; a sticker
      is moved to the new position. Neither changes anything else. */
  function Drag(d: Drawable, x: int, y: int): (r: Drawable)
    ensures r.MarkerLine? <==> d.MarkerLine?
    ensures d.MarkerLine? ==>
      && |r.points| == |d.points| + 1
      && r.points[..|d.points|] == d.points
      && r.points[|d.points|] == Point(x, y)
      && r.thickness == d.thickness
    ensures d.Sticker? ==> r.pos == Point(x, y) && r.text == d.text
    ensures WellFormed(r)
  {
    match d
    case MarkerLine(pts, t) => MarkerLine(pts + [Point(x, y)], t)
    case Sticker(_, text) => Sticker(Point(x, y), text)
  }

  /** One `lineTo` per point, in order. */
  function Segments(pts: seq<Point>): (r: seq<DrawCommand>)
    ensures |r| == |pts|
    ensures forall i :: 0 <= i < |pts| ==> r[i] == LineTo(pts[i])
  {
    if pts == [] then [] else [LineTo(pts[0])] + Segments(pts[1..])
  }

  /** The commands issued by `display(ctx)`. A marker line with fewer than two
      points draws nothing; otherwise it sets its width, moves to the first
      point and draws one segment to each later point before stroking.
      A sticker fills its text at its position. */
  function Display(d: Drawable): (r: seq<DrawCommand>)
    ensures d.Sticker? ==> r == [FillText(d.text, d.pos)]
    ensures d.MarkerLine? && |d.points| < 2 ==> r == []
    ensures d.MarkerLine? && |d.points| >= 2 ==>
      && |r| == |d.points| + 3
      && r[0] == SetLineWidth(d.thickness as real)
      && r[1] == BeginPath
      && r[2] == MoveTo(d.points[0])
      && (forall i :: 1 <= i < |d.points| ==> r[i + 2] == LineTo(d.points[i]))
      && r[|r| - 1] == Stroke
  {
    match d
    case MarkerLine(pts, t) =>
      if |pts| > 1 then
        [SetLineWidth(t as real), BeginPath, MoveTo(pts[0])] + Segments(pts[1..]) + [Stroke]
      else
        []
    case Sticker(pos, text) => [FillText(text, pos)]
  }

  /** `MarkerLine.display` written as the source's loop over the points. */
  method DisplayMarkerLine(points: seq<Point>, thickness: int) returns (cmds: seq<DrawCommand>)
    ensures cmds == Display(MarkerLine(points, thickness))
    ensures |points| < 2 ==> cmds == []
    ensures |points| >= 2 ==> CountLineTo(cmds) == |points| - 1
  {
    cmds := [];
    if |points| > 1 {
      var head := [SetLineWidth(thickness as real), BeginPath, MoveTo(points[0])];
      cmds := head;
      var i := 1;
      while i < |points|
        invariant 1 <= i <= |points|
        invariant cmds == head + Segments(points[1..i])
      {
        assert points[1..i + 1] == points[1..i] + [points[i]];
        SegmentsSnoc(points[1..i], points[i]);
        cmds := cmds + [LineTo(points[i])];
        i := i + 1;
      }
      assert points[1..i] == points[1..];
      cmds := cmds + [Stroke];
      LineSegmentCount(MarkerLine(points, thickness));
    }
  }

  lemma SegmentsSnoc(pts: seq<Point>, p: Point)
    ensures Segments(pts + [p]) == Segments(pts) + [LineTo(p)]
  {
  }

  /** The number of `lineTo` commands in a command list. */
  function CountLineTo(cmds: seq<DrawCommand>): nat {
    if cmds == [] then 0
    else (if cmds[0].LineTo? then 1 else 0) + CountLineTo(cmds[1..])
  }

  lemma {:induction false} CountLineToAppend(a: seq<DrawCommand>, b: seq<DrawCommand>)
    ensures CountLineTo(a + b) == CountLineTo(a) + CountLineTo(b)
  {
    if a == [] {
      assert a + b == b;
    } else {
      assert (a + b)[1..] == a[1..] + b;
      CountLineToAppend(a[1..], b);
    }
  }

  lemma {:induction false} NoLineTo(cmds: seq<DrawCommand>)
    requires forall i :: 0 <= i < |cmds| ==> !cmds[i].LineTo?
    ensures CountLineTo(cmds) == 0
  {
    if cmds != [] {
      NoLineTo(cmds[1..]);
    }
  }

  lemma {:induction false} CountSegments(pts: seq<Point>)
    ensures CountLineTo(Segments(pts)) == |pts|
  {
    if pts != [] {
      var s := Segments(pts);
      assert s == [LineTo(pts[0])] + Segments(pts[1..]);
      CountLineToAppend([LineTo(pts[0])], Segments(pts[1..]));
      CountSegments(pts[1..]);
    }
  }

  /** A displayed marker line of n >= 2 points draws exactly n - 1 segments;
      shorter lines and stickers draw none. */
  lemma LineSegmentCount(d: Drawable)
    ensures CountLineTo(Display(d)) == if d.MarkerLine? && |d.points| >= 2 then |d.points| - 1 else 0
  {
    match d
    case MarkerLine(pts, t) =>
      if |pts| > 1 {
        var head := [SetLineWidth(t as real), BeginPath, MoveTo(pts[0])];
        CountLineToAppend(head, Segments(pts[1..]));
        CountLineToAppend(head + Segments(pts[1..]), [Stroke]);
        CountSegments(pts[1..]);
        NoLineTo(head);
        NoLineTo([Stroke]);
        assert Display(d) == head + Segments(pts[1..]) + [Stroke];
      }
    case Sticker(_, _) =>
  }

  /** Dragging a line that is already visible adds exactly one segment, to the
      dragged point, just before the final stroke; the rest of the drawing is
      unchanged. A single-point line becomes visible with one segment. */
  lemma DragExtendsDisplay(d: Drawable, x: int, y: int)
    requires d.MarkerLine?
    ensures |d.points| >= 2 ==>
      Display(Drag(d, x, y)) == Display(d)[..|Display(d)| - 1] + [LineTo(Point(x, y)), Stroke]
    ensures |d.points| == 1 ==>
      Display(Drag(d, x, y)) == [SetLineWidth(d.thickness as real), BeginPath, MoveTo(d.points[0]), LineTo(Point(x, y)), Stroke]
    ensures CountLineTo(Display(Drag(d, x, y))) == |d.points|
  {
    LineSegmentCount(Drag(d, x, y));
  }

  /** Dragging a sticker twice is the same as dragging it once to the last
      position, and its display follows the position. */
  lemma StickerDragLastWins(d: Drawable, x1: int, y1: int, x2: int, y2: int)
    requires d.Sticker?
    ensures Drag(Drag(d, x1, y1), x2, y2) == Drag(d, x2, y2)
    ensures Display(Drag(d, x2, y2)) == [FillText(d.text, Point(x2, y2))]
  {
  }

  /** Dragging a line through a sequence of points appends them all, in order. */
  function DragAll(d: Drawable, ps: seq<Point>): (r: Drawable)
    decreases |ps|
  {
    if ps == [] then d else DragAll(Drag(d, ps[0].x, ps[0].y), ps[1..])
  }

  lemma {:induction false} DragAllAppends(d: Drawable, ps: seq<Point>)
    requires d.MarkerLine?
    ensures DragAll(d, ps) == MarkerLine(d.points + ps, d.thickness)
    decreases |ps|
  {
    if ps == [] {
      assert d.points + ps == d.points;
    } else {
      var d' := Drag(d, ps[0].x, ps[0].y);
      DragAllAppends(d', ps[1..]);
      assert d'.points + ps[1..] == d.points + ps;
    }
  }

  /** The preview cursor drawn under the pointer. */
  datatype ToolPreview = ToolPreview(pos: Point, isRendering: bool)

  /** `new ToolPreview(x, y)`: hidden until something turns rendering on. */
  function NewToolPreview(x: int, y: int): (p: ToolPreview)
    ensures p.pos == Point(x, y) && !p.isRendering
    ensures forall t: int, s: string :: PreviewDisplay(p, t, s) == []
  {
    ToolPreview(Point(x, y), false)
  }

  /** `ToolPreview.display(ctx)`, with the current thickness and sticker text
      passed in. Nothing when hidden; the sticker glyph alone in sticker mode;
      otherwise a circle of line width thickness/2 and radius thickness/4. */
  function PreviewDisplay(p: ToolPreview, curThickness: int, curSticker: string): (r: seq<DrawCommand>)
    ensures !p.isRendering ==> r == []
    ensures p.isRendering && curSticker != "" ==> r == [FillText(curSticker, p.pos)]
    ensures p.isRendering && curSticker == "" ==>
      && |r| == 5
      && r[0].SetLineWidth? && 2.0 * r[0].width == curThickness as real
      && r[1] == BeginPath
      && r[2].Ellipse? && r[2].center == p.pos
      && r[2].radiusX == r[2].radiusY && 4.0 * r[2].radiusX == curThickness as real
      && r[3] == Stroke && r[4] == Fill
    ensures forall i :: 0 <= i < |r| ==> !r[i].MoveTo? && !r[i].LineTo?
  {
    if !p.isRendering then
      []
    else if curSticker != "" then
      [FillText(curSticker, p.pos)]
    else
      var thickness := curThickness as real / 2.0;
      [SetLineWidth(thickness), BeginPath, Ellipse(p.pos, thickness / 2.0, thickness / 2.0), Stroke, Fill]
  }
}
